=== FILE: README.md ===
# OCR chatbot and chat session, modelled in Dafny

This project models the logic of two Streamlit pages.

- **The OCR-and-ask page** (`Final_milestone.py`). An uploaded image is read by
  an OCR reader. Its lines are joined with newlines into the extracted text.
  The "Ask the Chatbot" button then either warns (no upload), asks for a
  question (blank question), or answers with a rule-based responder. The
  responder is an ordered list of keyword tests over the lower-cased question:
  "what", "who", "hello"/"hi", "how", "why", "where", then a fallback. The
  first test that fires picks the reply. Two replies echo a prefix of the
  extracted text (250 and 300 characters).
- **The chat page** (`app.py`). A session holds the live conversation, an
  archive of saved chats, the archive position the live conversation belongs
  to, and the selected model. Each rerun of the page is one event:
  - sending a turn, answered by a local model or the cloud model, with an
    error message when the backend raises;
  - pressing "New Chat";
  - opening a saved chat from the search hits or the recent list;
  - choosing a model.

The backends, the OCR reader and the API-key lookup are inputs to the model.
A backend call is a `Result<string>`: `Ok(reply)` or `Err(exception message)`.
The key's presence is a `bool`. The OCR result is an `Option<Result<...>>`:
no upload, the reader raised, or the reader's lines.

Modules:

- `Outcomes`: `Option` and `Result`.
- `Text`: the Python string operations the pages use.
  - `lower()`, for ASCII letters;
  - the `in` substring test;
  - `s[:n]`;
  - `strip()`, with Python's whitespace set;
  - `"\n".join` and `split("\n")`.
- `RuleResponder`: the extracted text, the ask button and the responder. It
  also gives an independent rule-table definition of the policy, proved equal
  to the `if`/`elif` chain.
- `ChatSession`: the session record, titles, the archive update, turns, "New
  Chat", restoring, model choice and the event step.
- `ChatHistory`: title search, which offers three hits, and the list of the
  five most recent chats.
- `SessionInvariants`: the session invariant and the round trips.
  - Every event preserves the invariant.
  - A chat saved by "New Chat" is restored whole.
  - An answered turn after restoring updates the same archive entry in place;
    a turn whose backend raised leaves it as it was.

## Model

| member | source | states |
|---|---|---|
| Text.Lower | Final_milestone.py:118 | lower-casing keeps the length, maps every character through the ASCII letter rule, and leaves no upper-case letter |
| Text.LowerIdempotent | app.py:231 | lower-casing an already lower-cased string changes nothing, so lowering query and title again is harmless |
| Text.Contains | Final_milestone.py:122-133 | defines Python's `sub in s` by scanning the start positions from left to right; `ContainsIffOccurs` gives its meaning |
| Text.ContainsIffOccurs | Final_milestone.py:122-133 | the left-to-right `in` scan holds exactly when the keyword occupies some position of the text |
| Text.MissingCharExcludes | Final_milestone.py:122-133 | a keyword containing a letter that the question lacks does not match |
| Text.MissingPairExcludes | Final_milestone.py:122-133 | a keyword whose two neighbouring letters never stand side by side in the question does not match |
| Text.Head | Final_milestone.py:123 | `s[:n]` never fails: it is a prefix of `s`, of length `n` or all of `s` |
| Text.IsSpace | Final_milestone.py:115 | defines `str.isspace()` for one character: the code points Python treats as whitespace; `StripEmptyIffBlank` uses it |
| Text.TrimStart | Final_milestone.py:115 | removing leading whitespace leaves a suffix that does not start with whitespace, and only whitespace was removed |
| Text.TrimEnd | Final_milestone.py:115 | removing trailing whitespace leaves a prefix that does not end with whitespace, and only whitespace was removed |
| Text.Strip | Final_milestone.py:115 | the stripped question is empty or starts and ends with a non-whitespace character |
| Text.StripEmptyIffBlank | Final_milestone.py:115 | `not user_query.strip()` holds exactly for questions made only of whitespace, in both directions |
| Text.JoinLines | Final_milestone.py:79 | joining a single OCR line gives that line; `SplitJoinRoundTrip` states that joining loses nothing |
| Text.SplitLines | Final_milestone.py:79 | splitting on newlines gives at least one piece, and no piece holds a newline |
| Text.SplitJoinRoundTrip | Final_milestone.py:79 | joining newline-free OCR lines with "\n" and splitting again gives the lines back |
| RuleResponder.JoinSplitsBack | Final_milestone.py:79 | the extracted text of newline-free OCR lines splits back into those lines |
| RuleResponder.ExtractedText | Final_milestone.py:60-98 | extracted text is empty without an upload, when OCR raised, and when OCR found nothing; otherwise it is the lines joined by newlines, which split back into those lines |
| RuleResponder.IntentRecoverable | Final_milestone.py:122-135 | the seven replies differ pairwise, so the branch can be read back from any reply, whatever the extracted text |
| RuleResponder.TextEchoRecoverable | Final_milestone.py:123 | the "what" reply holds the first 250 characters of the text between header and "...", and all of a short text |
| RuleResponder.FallbackEchoRecoverable | Final_milestone.py:135 | the fallback reply holds the first 300 characters of the text between header and "...", and all of a short text |
| RuleResponder.Reply | Final_milestone.py:123-135 | defines the seven reply strings; `IntentRecoverable` shows they are pairwise distinct, and the echo lemmas show the text prefix they carry |
| RuleResponder.ClassifyLowered | Final_milestone.py:122-134 | defines the `if`/`elif` chain over the lowered question; `ClassifyFollowsPolicy` proves it equal to first-match over the rule table |
| RuleResponder.Classify | Final_milestone.py:118-134 | defines the branch taken as the `if`/`elif` chain run on `user_query.lower()`; `ClassifyFollowsPolicy` proves it first-match over the rule table, and `KeywordLetters` and `RespondIgnoresCase` state its consequences |
| RuleResponder.Respond | Final_milestone.py:118-135 | the reply is the reply of the branch that the lower-cased question selects |
| RuleResponder.RespondIsOneOfSeven | Final_milestone.py:122-135 | every question is answered with one of the seven branch replies |
| RuleResponder.FirstFiring | Final_milestone.py:122-135 | finds the first rule in table order whose keyword occurs; no earlier rule fires |
| RuleResponder.FiresOne | Final_milestone.py:122 | a one-keyword rule fires exactly when its keyword occurs |
| RuleResponder.FiresTwo | Final_milestone.py:126 | the greeting rule fires exactly when "hello" or "hi" occurs |
| RuleResponder.ClassifyFollowsPolicy | Final_milestone.py:118-135 | the `if`/`elif` chain equals "first firing rule of the ordered table wins, else fall back" for every question |
| RuleResponder.RespondIgnoresCase | Final_milestone.py:118 | questions that differ only in letter case get the same reply |
| RuleResponder.TextQuestionEchoes | Final_milestone.py:122-123 | any question containing "what" gets the text echo, whatever else it contains, and the reply is at most header + 250 + 3 characters long |
| RuleResponder.HiWinsOverLaterRules | Final_milestone.py:126-127 | a question with "hi" or "hello" and neither "what" nor "who" is greeted, even when it also contains "how", "why" or "where" |
| RuleResponder.UnmatchedEchoes | Final_milestone.py:134-135 | a question that fires no rule gets the fallback echo of the first 300 characters |
| RuleResponder.KeywordLetters | Final_milestone.py:122-135 | a question without an "h" always falls back; one without a "w" can only be greeted or fall back |
| RuleResponder.GreetedLowered | Final_milestone.py:126-127 | a question containing "hi" but not "what" or "who" takes the greeting branch |
| RuleResponder.WhoWroteWhatLowered | Final_milestone.py:122-123 | "who wrote what?" takes the "what" branch |
| RuleResponder.HowIsThisDoneLowered | Final_milestone.py:126-129 | "how is this done?" is greeted, because "this" contains "hi" |
| RuleResponder.WhichOneLowered | Final_milestone.py:126-127 | "which one?" is greeted, because "which" contains "hi" |
| RuleResponder.WhatDoesItSayLowered | Final_milestone.py:122-123 | "what does it say?" takes the "what" branch |
| RuleResponder.WhatBeforeWho | Final_milestone.py:122-125 | "Who wrote what?" is answered as a "what" question: the "what" test comes first |
| RuleResponder.HowQuestionGreeted | Final_milestone.py:126-129 | "How is this done?" gets the greeting rather than the method reply |
| RuleResponder.WhichQuestionGreeted | Final_milestone.py:126-127 | "Which one?" gets the greeting |
| RuleResponder.InvoiceExample | Final_milestone.py:122-123 | a short invoice text is echoed whole between the header and "..." |
| RuleResponder.Ask | Final_milestone.py:112-135 | the button warns exactly when there is no upload; it asks for a question exactly when there is an upload and the question is blank; otherwise it answers over the extracted text |
| RuleResponder.FailedOcrStillAnswers | Final_milestone.py:97-98 | after a failed OCR, a non-blank question is still answered, over empty text; a "what" question gets the bare header and "..." |
| ChatSession.InitialSession | app.py:26-33 | a fresh session has no messages, no saved chats, no archive position, and the default model "llama3.2:1b" |
| ChatSession.Title | app.py:169 | a message of at most 50 characters is its own title; a longer one is titled with its first 50 characters followed by "...", 53 characters in all; the title equals the message exactly when the message is at most 50 characters or already has "..." at positions 50-52 and nothing after |
| ChatSession.LongTitleExample | app.py:169 | a 72-character message is titled with its first 50 characters and "..." |
| ChatSession.Archive | app.py:165-173 | saving with no position leaves the archive alone; a taken position has its messages replaced while its title and every other entry are kept; a free position gets one new titled entry appended |
| ChatSession.EffectiveInput | app.py:104-122 | an upload replaces the typed text with the OCR text, which is empty when OCR raised; without an upload the typed text is sent |
| ChatSession.Dispatch | app.py:140-156 | the cloud model answers with the missing-key warning when no key is set and otherwise with the cloud outcome; every other model is answered locally |
| ChatSession.SendTurn | app.py:125-181 | an empty input changes nothing; otherwise the user message and one assistant message are appended and the earlier messages are kept; the first message claims the next free archive position; the model is unchanged |
| ChatSession.AssistantContent | app.py:158-181 | defines the assistant message: the reply, or `f"Error: {str(e)}"` when the backend raised; `SendTurnReply` states it per model and outcome |
| ChatSession.SendTurnReply | app.py:140-181 | the assistant message is the missing-key warning, "Error: " with the exception message, or the backend's reply, for each model and outcome |
| ChatSession.SendTurnArchive | app.py:160-181 | a backend exception leaves the archive untouched; a reply updates the conversation's own entry in place or appends it when it has none |
| ChatSession.MissingKeyTurn | app.py:140-142 | with the cloud model and no key, the warning becomes the assistant's turn and the conversation is still archived |
| ChatSession.NewChat | app.py:206-218 | "New Chat" empties the conversation and forgets its position; a non-empty conversation is archived first; the archive grows by at most one |
| ChatSession.Restore | app.py:238-239 | opening a saved chat makes its messages the live conversation and its index the archive position, and leaves the archive alone |
| ChatSession.ModelNames | app.py:69-75 | the select box's values are the option table's model names, in the table's order |
| ChatSession.IndexOf | app.py:191-193 | `values.index(model)` is the first position holding the model, and it fails exactly when the model is absent |
| ChatSession.ModelIndex | app.py:188-193 | the preselected row is always a valid row; it shows the selected model when that model is offered, and the first row otherwise |
| ChatSession.ModelIndexRoundTrip | app.py:69-75 | the model names are distinct, so each row's model leads back to that row |
| ChatSession.SelectModel | app.py:195-201 | choosing a row sets the selected model to that row's model and changes nothing else |
| ChatSession.Step | app.py:125-255 | each rerun's event does what its handler does: "New Chat" empties the conversation, opening selects a saved chat, choosing sets the model |
| ChatHistory.FlaggedFrom | app.py:229-232 | every collected index is in range and its chat matches, and indices come in increasing order |
| ChatHistory.FlaggedSorted | app.py:229-232 | the collected indices are strictly increasing, so there is no repeat and archive order is kept |
| ChatHistory.FlaggedComplete | app.py:229-232 | no matching chat is skipped |
| ChatHistory.TitleMatches | app.py:231 | defines `search_query.lower() in chat["title"].lower()`; `SearchIgnoresCase` and `Matches` state its use |
| ChatHistory.Matches | app.py:229-232 | the hits are exactly the indices whose lower-cased titles contain the lower-cased query, in archive order |
| ChatHistory.Search | app.py:228-242 | nothing is shown for an empty query or archive; "No chats found" only when no title matches; otherwise "Found n chats" with n the number of matching titles, and at most three matching hits in archive order; any match not offered comes after the third |
| ChatHistory.SearchIgnoresCase | app.py:231 | searching with the lower-cased query shows the same as the original query |
| ChatHistory.Reverse | app.py:250 | `reversed` keeps the length and reads positions back to front |
| ChatHistory.LastFive | app.py:249 | `saved[-5:]` is the last five chats, or all of them when there are fewer: a suffix of the archive of length min(n, 5) |
| ChatHistory.RecentEntries | app.py:249-251 | defines the recent list as pairs of (`len(saved) - 1 - i`, chat); `RecentEntriesSound` states its meaning |
| ChatHistory.RecentEntriesSound | app.py:247-255 | the recent list has min(n, 5) entries, newest first, positions n-1 downwards; each button restores the chat it shows |
| ChatHistory.RecentCoversNewest | app.py:249-251 | every one of the five newest chats has a button in the recent list |
| ChatHistory.OpenSearchHit | app.py:236-240 | opening a search hit loads a saved chat whose title matches the query |
| ChatHistory.OpenRecentEntry | app.py:250-255 | opening a recent entry loads the chat that entry shows |
| SessionInvariants.InitialValid | app.py:26-33 | the fresh session satisfies the session invariant |
| SessionInvariants.AlternatingTurn | app.py:126-181 | a user/assistant pair keeps the conversation alternating |
| SessionInvariants.SendTurnAppendsPair | app.py:126-181 | a turn appends exactly the user message and the assistant content of the dispatched outcome |
| SessionInvariants.UpdatedChatWellFormed | app.py:165-167 | a reply that rewrites an existing entry keeps it well formed: the entry still starts with the conversation's first message, so its kept title still matches |
| SessionInvariants.SendTurnKeepsChatsWellFormed | app.py:165-173 | after a turn, every saved chat is non-empty, alternating and titled after its first message |
| SessionInvariants.SendTurnKeepsSavedPrefix | app.py:160-181 | the archive entry at the conversation's position stays a prefix of the conversation after a turn, including after a backend exception, which leaves the entry as it was |
| SessionInvariants.SendTurnPreservesValid | app.py:125-181 | sending a turn preserves the session invariant, including after a backend exception |
| SessionInvariants.NewChatPreservesValid | app.py:206-218 | "New Chat" preserves the session invariant |
| SessionInvariants.RestorePreservesValid | app.py:236-255 | opening a saved chat preserves the session invariant |
| SessionInvariants.SelectModelPreservesValid | app.py:195-201 | choosing a model preserves the session invariant |
| SessionInvariants.StepPreservesValid | app.py:125-255 | every interaction the page offers preserves the session invariant |
| SessionInvariants.SelectedModelPreselected | app.py:188-201 | in a valid session the select box preselects the current model, and the fall-back to row 0 never fires |
| SessionInvariants.AnsweredTurnIsSaved | app.py:160-173 | after an answered turn, the archive holds the live conversation under its position |
| SessionInvariants.NewChatThenRestore | app.py:206-218 | after "New Chat", opening the entry it saved to gives back the conversation exactly |
| SessionInvariants.RestoredTurnUpdatesInPlace | app.py:165-167 | after a chat is opened, an answered turn rewrites that entry in place; the archive length, the title and the other entries are kept |
| SessionInvariants.RestoredFailedTurnKeepsArchive | app.py:175-181 | after a chat is opened, a turn whose backend raised leaves the archive as it was, while the conversation still gains the user message and the error message |

## Left out

- The Streamlit rendering is not modelled: columns, spinners, captions, markdown, images, download buttons and `st.rerun()`. Each rerun is one event.
- The network calls (`ollama.chat`, the DeepSeek client) and the API-key lookup are not modelled. They become the `local`/`cloud` outcomes and the `hasKey` flag. An Ollama answer without a message or content (`.get(..., "")`) is an `Ok("")` outcome.
- The OCR reader is not modelled (`easyocr_helper.py`, the cached `easyocr.Reader`). It becomes an outcome parameter.
- File I/O is not modelled: saving the upload under `temp_uploads`, the timestamped `outputs/ocr_output_*.txt` file and the download button. They have no effect on the text or the replies.
- `chatbot2.py` is not part of this model.
- Widget persistence across reruns is not modelled. The text input and the file uploader both keep their values across reruns. While an image stays uploaded, every rerun runs OCR again and sends its text as a turn (app.py:104-126). That turn happens before the sidebar handlers at app.py:195-255 run. It also happens on the reruns caused by "New Chat", opening a chat or choosing a model, and by the `st.rerun()` at app.py:219, 240 and 255. The same holds for a typed message left in the text input. The model sends a turn only on a `Send` event; its `PressNewChat`, `Open` and `Choose` events never send one.
- The select box runs after the turn on every rerun. The model treats a model choice as its own event and does not model ordering within one rerun.
- The title computed at app.py:133 is never used. The model does not keep it; the saved title comes from app.py:169 and app.py:212.
- Choosing a model does not archive the conversation. The code sets only `selected_model` (app.py:201), and the model follows the code.
- Text.Lower: lower-cases ASCII letters only and leaves every other character unchanged, while Python's `str.lower()` lower-cases every upper-case and title-case letter. Only two code points lower to ASCII letters: U+0130 (to "i" plus a combining dot) and U+212A, the Kelvin sign (to "k"). No keyword holds a "k", so only U+0130 reaches the responder, and only through the "hi" test: Python greets "Hİ", while the model falls back. For the title search (app.py:231) the gap is wider. Any title or query holding a non-ASCII upper-case or title-case letter can give a different result: Latin letters with accents, Greek, Cyrillic, and also U+0130 and U+212A. For example, the query "étude" finds the title "Étude" in Python, but not in the model.

=== FILE: history.dfy ===
/** The sidebar's two ways back into the archive (app.py): searching chat
    titles, of which at most three hits are offered, and the list of the five
    most recent chats, newest first. Both hand an archive position to
    `ChatSession.Restore`. */
module ChatHistory {
  import opened Outcomes
  import opened Text
  import opened ChatSession

  // ---------------------------------------------------------------------------
  // Search
  // ---------------------------------------------------------------------------

  const SearchShown: nat := 3

  /** `query.lower() in title.lower()`. */
  predicate TitleMatches(query: string, title: string)
  {
    Contains(Lower(title), Lower(query))
  }

  predicate StrictlyIncreasing(xs: seq<nat>)
  {
    forall a, b :: 0 <= a < b < |xs| ==> xs[a] < xs[b]
  }

  /** The positions from `from` on that are flagged, in increasing order. */
  function FlaggedFrom(flags: seq<bool>, from: nat): (hits: seq<nat>)
    requires from <= |flags|
    ensures forall x :: 0 <= x < |hits| ==> from <= hits[x] < |flags| && flags[hits[x]]
    ensures forall x :: 0 <= x < |hits| - 1 ==> hits[x] < hits[x + 1]
    decreases |flags| - from
  {
    if from == |flags| then []
    else
      var rest := FlaggedFrom(flags, from + 1);
      if flags[from] then [from] + rest else rest
  }

  /** The flagged positions are listed without repetition, in increasing order. */
  lemma {:induction false} FlaggedSorted(flags: seq<bool>, from: nat)
    requires from <= |flags|
    ensures StrictlyIncreasing(FlaggedFrom(flags, from))
    decreases |flags| - from
  {
    if from < |flags| {
      FlaggedSorted(flags, from + 1);
      var rest := FlaggedFrom(flags, from + 1);
      if flags[from] {
        var hits := [from] + rest;
        forall a, b | 0 <= a < b < |hits| ensures hits[a] < hits[b] {
          assert hits[b] == rest[b - 1];
          if a > 0 {
            assert hits[a] == rest[a - 1];
          }
        }
      }
    }
  }

  /** No flagged position from `from` on is missed. */
  lemma {:induction false} FlaggedComplete(flags: seq<bool>, from: nat, j: nat)
    requires from <= j < |flags| && flags[j]
    ensures j in FlaggedFrom(flags, from)
    decreases |flags| - from
  {
    if j != from {
      FlaggedComplete(flags, from + 1, j);
    }
  }

  /** The search hits over the whole archive (the `matching_chats` loop):
      exactly the positions whose titles match, in archive order. */
  function Matches(saved: seq<SavedChat>, query: string): (hits: seq<nat>)
    ensures StrictlyIncreasing(hits)
    ensures forall x :: 0 <= x < |hits| ==>
      hits[x] < |saved| && TitleMatches(query, saved[hits[x]].title)
    ensures forall j :: 0 <= j < |saved| ==>
      (TitleMatches(query, saved[j].title) <==> j in hits)
  {
    var flags := seq(|saved|, j requires 0 <= j < |saved| => TitleMatches(query, saved[j].title));
    FlaggedSorted(flags, 0);
    assert forall j :: 0 <= j < |flags| && flags[j] ==> j in FlaggedFrom(flags, 0) by {
      forall j | 0 <= j < |flags| && flags[j] ensures j in FlaggedFrom(flags, 0) {
        FlaggedComplete(flags, 0, j);
      }
    }
    FlaggedFrom(flags, 0)
  }

  /** What the search box shows. */
  datatype SearchView =
    | NotSearched                        // empty query or empty archive
    | NoChatsFound                       // "No chats found"
    | Found(total: nat, offered: seq<nat>) // "Found n chats:" and up to three buttons

  /** The search box: nothing for an empty query or archive; otherwise the
      hit count and the first three hits in archive order, or "No chats found". */
  function Search(saved: seq<SavedChat>, query: string): (v: SearchView)
    ensures v.NotSearched? <==> query == "" || saved == []
    ensures v.NoChatsFound? ==> forall j :: 0 <= j < |saved| ==> !TitleMatches(query, saved[j].title)
    ensures v.Found? ==> v.total == |Matches(saved, query)|
    ensures v.Found? ==>
      0 < |v.offered| <= SearchShown && |v.offered| <= v.total &&
      (v.total <= SearchShown ==> |v.offered| == v.total) &&
      StrictlyIncreasing(v.offered) &&
      (forall x :: 0 <= x < |v.offered| ==>
        v.offered[x] < |saved| && TitleMatches(query, saved[v.offered[x]].title)) &&
      (forall j :: 0 <= j < |saved| && TitleMatches(query, saved[j].title) && j !in v.offered ==>
        |v.offered| == SearchShown && v.offered[SearchShown - 1] < j)
  {
    if query == "" || saved == [] then NotSearched
    else
      var hits := Matches(saved, query);
      if hits == [] then NoChatsFound
      else
        var offered := Head(hits, SearchShown);
        assert forall x :: 0 <= x < |offered| ==> offered[x] == hits[x];
        Found(|hits|, offered)
  }

  /** The search ignores case on both sides. */
  lemma SearchIgnoresCase(saved: seq<SavedChat>, query: string)
    ensures Search(saved, Lower(query)) == Search(saved, query)
  {
    LowerIdempotent(query);
    assert forall t :: TitleMatches(Lower(query), t) == TitleMatches(query, t);
    var f1 := seq(|saved|, j requires 0 <= j < |saved| => TitleMatches(Lower(query), saved[j].title));
    var f2 := seq(|saved|, j requires 0 <= j < |saved| => TitleMatches(query, saved[j].title));
    assert f1 == f2;
  }

  // ---------------------------------------------------------------------------
  // Recent chats
  // ---------------------------------------------------------------------------

  const RecentShown: nat := 5

  function Reverse<T>(xs: seq<T>): (r: seq<T>)
    ensures |r| == |xs|
    ensures forall i :: 0 <= i < |xs| ==> r[i] == xs[|xs| - 1 - i]
  {
    if xs == [] then [] else Reverse(xs[1..]) + [xs[0]]
  }

  /** `saved[-5:]`: the last five chats, or all of them when there are fewer. */
  function LastFive(saved: seq<SavedChat>): (r: seq<SavedChat>)
    ensures |r| <= |saved| && |r| <= RecentShown
    ensures |r| == RecentShown || r == saved
    ensures r == saved[|saved| - |r|..]
  {
    if |saved| <= RecentShown then saved else saved[|saved| - RecentShown..]
  }

  /** `enumerate(reversed(saved[-5:]))`, each chat paired with the position
      `len(saved) - 1 - i` its button restores. */
  function RecentEntries(saved: seq<SavedChat>): seq<(nat, SavedChat)>
  {
    var shown := Reverse(LastFive(saved));
    seq(|shown|, i requires 0 <= i < |shown| =>
      (|saved| - 1 - i, shown[i]))
  }

  /** The recent list: at most five entries, newest first, positions
      `n-1` down to `max(0, n-5)`, and every button restores exactly the chat
      it shows. */
  lemma RecentEntriesSound(saved: seq<SavedChat>)
    ensures var entries := RecentEntries(saved);
      |entries| == (if |saved| < RecentShown then |saved| else RecentShown) &&
      (forall i :: 0 <= i < |entries| ==> entries[i].0 == |saved| - 1 - i) &&
      (forall i :: 0 <= i < |entries| ==> entries[i].0 < |saved| && entries[i].1 == saved[entries[i].0]) &&
      (forall a, b :: 0 <= a < b < |entries| ==> entries[a].0 > entries[b].0)
  {
    var last := LastFive(saved);
    var shown := Reverse(last);
    var entries := RecentEntries(saved);
    forall i | 0 <= i < |entries|
      ensures entries[i].0 == |saved| - 1 - i && entries[i].1 == saved[entries[i].0]
    {
      assert shown[i] == last[|last| - 1 - i];
      assert last[|last| - 1 - i] == saved[|saved| - 1 - i];
    }
  }

  /** Every chat of the newest five appears in the list. */
  lemma RecentCoversNewest(saved: seq<SavedChat>, j: nat)
    requires j < |saved| && |saved| - RecentShown <= j
    ensures exists i :: 0 <= i < |RecentEntries(saved)| && RecentEntries(saved)[i].0 == j
  {
    RecentEntriesSound(saved);
    var i := |saved| - 1 - j;
    assert RecentEntries(saved)[i].0 == j;
  }

  // ---------------------------------------------------------------------------
  // Opening a chat from the sidebar
  // ---------------------------------------------------------------------------

  /** Opening a search hit loads a conversation whose title matches the query. */
  lemma OpenSearchHit(s: Session, query: string, x: nat)
    requires Search(s.savedChats, query).Found?
    requires x < |Search(s.savedChats, query).offered|
    ensures var k := Search(s.savedChats, query).offered[x];
      k < |s.savedChats| &&
      Restore(s, k).currentChatId == Some(k) &&
      Restore(s, k).messages == s.savedChats[k].messages &&
      TitleMatches(query, Restore(s, k).savedChats[k].title)
  {
  }

  /** Opening a recent entry loads the chat that entry shows. */
  lemma OpenRecentEntry(s: Session, i: nat)
    requires i < |RecentEntries(s.savedChats)|
    ensures var e := RecentEntries(s.savedChats)[i];
      e.0 < |s.savedChats| &&
      Restore(s, e.0).messages == e.1.messages &&
      Restore(s, e.0).currentChatId == Some(e.0)
  {
    RecentEntriesSound(s.savedChats);
  }
}

=== FILE: invariants.dfy ===
/** What every reachable chat session satisfies, proved preserved by each
    event, and the round trips the archive promises: a conversation saved by
    "New Chat" comes back whole when it is opened again, and later turns land
    in its own entry instead of a copy. */
module SessionInvariants {
  import opened Outcomes
  import opened Text
  import opened ChatSession

  /** User and assistant messages strictly alternate, starting with the user,
      and come in pairs. */
  predicate Alternating(m: seq<Message>)
  {
    |m| % 2 == 0 &&
    forall i :: 0 <= i < |m| ==> m[i].role == (if i % 2 == 0 then User else Assistant)
  }

  /** An archived chat holds at least one turn and is titled after its first message. */
  predicate WellFormedChat(c: SavedChat)
  {
    |c.messages| > 0 && Alternating(c.messages) && c.title == Title(c.messages[0].content)
  }

  /** The session invariant:
      - the live conversation alternates and every archived chat is well formed;
      - a conversation has an archive position exactly when it is non-empty;
      - that position is an existing entry or the next free one;
      - an existing entry at that position is a prefix of the live conversation
        (it lags only by turns whose backend call raised);
      - the selected model is one of the offered options. */
  predicate Valid(s: Session)
  {
    Alternating(s.messages) &&
    (forall j :: 0 <= j < |s.savedChats| ==> WellFormedChat(s.savedChats[j])) &&
    (s.currentChatId.Some? <==> s.messages != []) &&
    (s.currentChatId.Some? ==> s.currentChatId.value <= |s.savedChats|) &&
    (s.currentChatId.Some? && s.currentChatId.value < |s.savedChats| ==>
      IsPrefix(s.savedChats[s.currentChatId.value].messages, s.messages)) &&
    s.selectedModel in ModelNames(ModelOptions)
  }

  lemma InitialValid()
    ensures Valid(InitialSession())
  {
    assert ModelNames(ModelOptions)[0] == DefaultModel;
  }

  lemma AlternatingTurn(m: seq<Message>, input: string, reply: string)
    requires Alternating(m)
    ensures Alternating(m + [Message(User, input), Message(Assistant, reply)])
  {
  }

  /** The turn appends exactly the user message and the assistant's answer. */
  lemma SendTurnAppendsPair(s: Session, input: string, hasKey: bool,
                            local: Result<string>, cloud: Result<string>)
    requires input != ""
    ensures SendTurn(s, input, hasKey, local, cloud).messages ==
      s.messages + [Message(User, input),
                    Message(Assistant, AssistantContent(Dispatch(s.selectedModel, hasKey, local, cloud)))]
  {
    var r := SendTurn(s, input, hasKey, local, cloud);
    assert r.messages == r.messages[..|s.messages|] + [r.messages[|s.messages|], r.messages[|s.messages| + 1]];
  }

  /** A reply rewriting an existing entry keeps it well formed: the entry's
      first message, and so its title, is the conversation's first message. */
  lemma UpdatedChatWellFormed(s: Session, input: string, hasKey: bool,
                              local: Result<string>, cloud: Result<string>)
    requires Valid(s) && input != ""
    requires Dispatch(s.selectedModel, hasKey, local, cloud).Ok?
    requires s.currentChatId.Some? && s.currentChatId.value < |s.savedChats|
    ensures var r := SendTurn(s, input, hasKey, local, cloud);
      WellFormedChat(r.savedChats[s.currentChatId.value])
  {
    var r := SendTurn(s, input, hasKey, local, cloud);
    var k := s.currentChatId.value;
    SendTurnAppendsPair(s, input, hasKey, local, cloud);
    AlternatingTurn(s.messages, input, AssistantContent(Dispatch(s.selectedModel, hasKey, local, cloud)));
    SendTurnArchive(s, input, hasKey, local, cloud);
    assert s.savedChats[k].messages[0] == s.messages[0];
    assert r.messages[0] == s.messages[0];
  }

  /** Every archived chat stays well formed across a turn. */
  lemma SendTurnKeepsChatsWellFormed(s: Session, input: string, hasKey: bool,
                                     local: Result<string>, cloud: Result<string>)
    requires Valid(s) && input != ""
    ensures var r := SendTurn(s, input, hasKey, local, cloud);
      forall j :: 0 <= j < |r.savedChats| ==> WellFormedChat(r.savedChats[j])
  {
    var r := SendTurn(s, input, hasKey, local, cloud);
    var outcome := Dispatch(s.selectedModel, hasKey, local, cloud);
    SendTurnArchive(s, input, hasKey, local, cloud);
    if outcome.Ok? {
      var k := r.currentChatId.value;
      if k < |s.savedChats| {
        UpdatedChatWellFormed(s, input, hasKey, local, cloud);
      } else {
        SendTurnAppendsPair(s, input, hasKey, local, cloud);
        AlternatingTurn(s.messages, input, AssistantContent(outcome));
        assert r.savedChats[|s.savedChats|] == SavedChat(Title(r.messages[0].content), r.messages);
      }
    }
  }

  /** The archive entry at the conversation's position, if any, stays a prefix
      of the conversation across a turn. */
  lemma SendTurnKeepsSavedPrefix(s: Session, input: string, hasKey: bool,
                                 local: Result<string>, cloud: Result<string>)
    requires Valid(s) && input != ""
    ensures var r := SendTurn(s, input, hasKey, local, cloud);
      r.currentChatId.Some? && r.currentChatId.value < |r.savedChats| ==>
        IsPrefix(r.savedChats[r.currentChatId.value].messages, r.messages)
  {
    var r := SendTurn(s, input, hasKey, local, cloud);
    SendTurnArchive(s, input, hasKey, local, cloud);
    if s.currentChatId.Some? && s.currentChatId.value < |s.savedChats| {
      var kept := s.savedChats[s.currentChatId.value].messages;
      assert r.messages[..|kept|] == s.messages[..|kept|];
    }
  }

  lemma SendTurnPreservesValid(s: Session, input: string, hasKey: bool,
                               local: Result<string>, cloud: Result<string>)
    requires Valid(s)
    ensures Valid(SendTurn(s, input, hasKey, local, cloud))
  {
    if input != "" {
      var r := SendTurn(s, input, hasKey, local, cloud);
      var outcome := Dispatch(s.selectedModel, hasKey, local, cloud);
      SendTurnAppendsPair(s, input, hasKey, local, cloud);
      AlternatingTurn(s.messages, input, AssistantContent(outcome));
      assert Alternating(r.messages);
      SendTurnKeepsChatsWellFormed(s, input, hasKey, local, cloud);
      SendTurnArchive(s, input, hasKey, local, cloud);
      assert r.currentChatId.Some? && r.messages != [];
      assert r.currentChatId.value <= |r.savedChats|;
      SendTurnKeepsSavedPrefix(s, input, hasKey, local, cloud);
      assert r.selectedModel in ModelNames(ModelOptions);
    }
  }

  lemma NewChatPreservesValid(s: Session)
    requires Valid(s)
    ensures Valid(NewChat(s))
  {
    var r := NewChat(s);
    if s.messages != [] {
      var k := s.currentChatId.value;
      if k < |s.savedChats| {
        assert s.savedChats[k].messages[0] == s.messages[0];
      }
    }
  }

  lemma RestorePreservesValid(s: Session, k: nat)
    requires Valid(s) && k < |s.savedChats|
    ensures Valid(Restore(s, k))
  {
  }

  lemma SelectModelPreservesValid(s: Session, i: nat)
    requires Valid(s) && i < |ModelOptions|
    ensures Valid(SelectModel(s, i))
  {
  }

  /** Every offered interaction keeps the session valid. */
  lemma StepPreservesValid(s: Session, e: Event)
    requires Valid(s) && Enabled(s, e)
    ensures Valid(Step(s, e))
  {
    match e
    case Send(typed, upload, hasKey, local, cloud) =>
      SendTurnPreservesValid(s, EffectiveInput(typed, upload), hasKey, local, cloud);
    case PressNewChat => NewChatPreservesValid(s);
    case Open(k) => RestorePreservesValid(s, k);
    case Choose(i) => SelectModelPreservesValid(s, i);
  }

  /** In a valid session the select box preselects the current model: the
      fall-back to the first row never fires. */
  lemma SelectedModelPreselected(s: Session)
    requires Valid(s)
    ensures ModelOptions[ModelIndex(s.selectedModel)].1 == s.selectedModel
  {
  }

  /** After a turn whose backend answered, the archive holds the live
      conversation under its current position. */
  lemma AnsweredTurnIsSaved(s: Session, input: string, hasKey: bool,
                            local: Result<string>, cloud: Result<string>)
    requires Valid(s) && input != ""
    requires Dispatch(s.selectedModel, hasKey, local, cloud).Ok?
    ensures var r := SendTurn(s, input, hasKey, local, cloud);
      r.currentChatId.Some? && r.currentChatId.value < |r.savedChats| &&
      r.savedChats[r.currentChatId.value].messages == r.messages
  {
    SendTurnArchive(s, input, hasKey, local, cloud);
  }

  /** The archive position "New Chat" saves a non-empty conversation under. */
  function ArchivedAt(s: Session): nat
    requires s.currentChatId.Some?
  {
    if s.currentChatId.value < |s.savedChats| then s.currentChatId.value else |s.savedChats|
  }

  /** "New Chat" then opening the entry it saved to gives back the
      conversation exactly. */
  lemma NewChatThenRestore(s: Session)
    requires Valid(s) && s.messages != []
    ensures var t := NewChat(s);
      ArchivedAt(s) < |t.savedChats| &&
      Restore(t, ArchivedAt(s)).messages == s.messages &&
      Restore(t, ArchivedAt(s)).currentChatId == Some(ArchivedAt(s))
  {
  }

  /** After opening entry `k`, an answered turn rewrites entry `k` in place:
      the archive keeps its length and every other entry. */
  lemma RestoredTurnUpdatesInPlace(s: Session, k: nat, input: string, hasKey: bool,
                                   local: Result<string>, cloud: Result<string>)
    requires Valid(s) && k < |s.savedChats| && input != ""
    requires Dispatch(s.selectedModel, hasKey, local, cloud).Ok?
    ensures var r := SendTurn(Restore(s, k), input, hasKey, local, cloud);
      |r.savedChats| == |s.savedChats| &&
      r.savedChats[k].messages == r.messages &&
      r.savedChats[k].title == s.savedChats[k].title &&
      r.currentChatId == Some(k) &&
      forall j :: 0 <= j < |s.savedChats| && j != k ==> r.savedChats[j] == s.savedChats[j]
  {
    var t := Restore(s, k);
    assert t.messages != [];
    SendTurnArchive(t, input, hasKey, local, cloud);
  }

  /** After opening entry `k`, a turn whose backend raised leaves the archive
      alone: the error reaches the conversation but not entry `k`. */
  lemma RestoredFailedTurnKeepsArchive(s: Session, k: nat, input: string, hasKey: bool,
                                       local: Result<string>, cloud: Result<string>)
    requires Valid(s) && k < |s.savedChats| && input != ""
    requires Dispatch(s.selectedModel, hasKey, local, cloud).Err?
    ensures var r := SendTurn(Restore(s, k), input, hasKey, local, cloud);
      r.savedChats == s.savedChats &&
      r.currentChatId == Some(k) &&
      |r.messages| == |s.savedChats[k].messages| + 2 &&
      r.messages[|s.savedChats[k].messages| + 1].content ==
        ErrorPrefix + Dispatch(s.selectedModel, hasKey, local, cloud).message
  {
    var t := Restore(s, k);
    assert t.messages != [];
    SendTurnArchive(t, input, hasKey, local, cloud);
    SendTurnReply(t, input, hasKey, local, cloud);
  }
}

=== FILE: outcomes.dfy ===
/** Failure-carrying values shared by the models of both scripts. */
module Outcomes {

  /** Python's `None` or a present value. */
  datatype Option<+T> = None | Some(value: T)

  /** The outcome of a call that may raise: its value, or the exception's message. */
  datatype Result<+T> = Ok(value: T) | Err(message: string)
}

=== FILE: responder.dfy ===
/** The OCR-and-ask page: the text extracted from the uploaded image, the
    guards in front of the chatbot, and the rule-based responder, an ordered
    list of keyword tests over the lower-cased question where the first test
    that fires picks the reply (Final_milestone.py). */
module RuleResponder {
  import opened Outcomes
  import opened Text

  // ---------------------------------------------------------------------------
  // Extracted text
  // ---------------------------------------------------------------------------

  predicate NoNewlines(lines: seq<string>)
  {
    forall k :: 0 <= k < |lines| ==> '\n' !in lines[k]
  }

  /** Joined newline-free OCR lines split back into those lines. */
  lemma JoinSplitsBack(lines: seq<string>)
    requires |lines| >= 1
    ensures NoNewlines(lines) ==> SplitLines(JoinLines(lines)) == lines
  {
    if NoNewlines(lines) {
      SplitJoinRoundTrip(lines);
    }
  }

  /** The page's `extracted_text`: empty unless an image was uploaded and the
      OCR reader returned lines, in which case the lines joined by newlines.
      `upload` is `None` without an upload, otherwise the reader's outcome. */
  function ExtractedText(upload: Option<Result<seq<string>>>): (t: string)
    ensures upload.None? ==> t == ""
    ensures upload.Some? && upload.value.Err? ==> t == ""
    ensures upload.Some? && upload.value.Ok? && upload.value.value == [] ==> t == ""
    ensures (upload.Some? && upload.value.Ok? && |upload.value.value| >= 1 &&
             NoNewlines(upload.value.value)) ==> SplitLines(t) == upload.value.value
  {
    match upload
    case None => ""
    case Some(Err(_)) => ""
    case Some(Ok(lines)) =>
      if |lines| > 0 then JoinSplitsBack(lines); JoinLines(lines)
      else ""
  }

  // ---------------------------------------------------------------------------
  // Intents and their replies
  // ---------------------------------------------------------------------------

  /** Which of the seven branches answered. */
  datatype Intent =
    | AboutText      // "what"
    | AboutPersons   // "who"
    | Greeting       // "hello" or "hi"
    | AboutMethod    // "how"
    | AboutPurpose   // "why"
    | AboutLocation  // "where"
    | Fallback       // nothing matched

  const TextHeader: string := "The text mainly says:\n\n"
  const FallbackHeader: string := "Here\U{2019}s a part of your extracted text:\n\n"
  const Ellipsis: string := "..."
  const TextEchoLimit: nat := 250
  const FallbackEchoLimit: nat := 300

  const PersonsReply: string := ['\U{1F464}'] + " I cannot detect persons, only textual data from the image."
  const GreetingReply: string := ['\U{1F44B}'] + " Hello there! Upload an image and I\U{2019}ll extract the text for you."
  const MethodReply: string := ['\U{2699}'] + "\U{FE0F} I use EasyOCR to detect and extract readable text from your image efficiently."
  const PurposeReply: string := ['\U{1F914}'] + " Because automating text extraction saves time and prevents manual errors!"
  const LocationReply: string := ['\U{1F4CD}'] + " I work locally on your system without requiring cloud or GPU!"

  /** The reply text of each branch; two of them echo a prefix of the extracted text. */
  function Reply(intent: Intent, text: string): string
  {
    match intent
    case AboutText => TextHeader + Head(text, TextEchoLimit) + Ellipsis
    case AboutPersons => PersonsReply
    case Greeting => GreetingReply
    case AboutMethod => MethodReply
    case AboutPurpose => PurposeReply
    case AboutLocation => LocationReply
    case Fallback => FallbackHeader + Head(text, FallbackEchoLimit) + Ellipsis
  }

  /** Reads the branch back off a reply: the first character tells them apart. */
  function IntentOfReply(r: string): Intent
  {
    if r == [] then Fallback
    else if r[0] == 'T' then AboutText
    else if r[0] == '\U{1F464}' then AboutPersons
    else if r[0] == '\U{1F44B}' then Greeting
    else if r[0] == '\U{2699}' then AboutMethod
    else if r[0] == '\U{1F914}' then AboutPurpose
    else if r[0] == '\U{1F4CD}' then AboutLocation
    else Fallback
  }

  /** Every reply names its branch: no two branches can produce the same text,
      whatever the extracted text is. */
  lemma IntentRecoverable(intent: Intent, text: string)
    ensures IntentOfReply(Reply(intent, text)) == intent
  {
    var r := Reply(intent, text);
    match intent
    case AboutText => assert r[0] == TextHeader[0];
    case AboutPersons => assert r[0] == PersonsReply[0];
    case Greeting => assert r[0] == GreetingReply[0];
    case AboutMethod => assert r[0] == MethodReply[0];
    case AboutPurpose => assert r[0] == PurposeReply[0];
    case AboutLocation => assert r[0] == LocationReply[0];
    case Fallback => assert r[0] == FallbackHeader[0];
  }

  /** The text branch's echo can be cut back out of the reply. */
  lemma TextEchoRecoverable(text: string)
    ensures var r := Reply(AboutText, text);
      |TextHeader| + |Ellipsis| <= |r| <= |TextHeader| + TextEchoLimit + |Ellipsis| &&
      r[|TextHeader|..|r| - |Ellipsis|] == Head(text, TextEchoLimit) &&
      (|text| <= TextEchoLimit ==> r[|TextHeader|..|r| - |Ellipsis|] == text)
  {
    var r := Reply(AboutText, text);
    var h := Head(text, TextEchoLimit);
    assert r == TextHeader + h + Ellipsis;
    assert r[|TextHeader|..|r| - |Ellipsis|] == h;
  }

  /** The fallback branch's echo can be cut back out of the reply. */
  lemma FallbackEchoRecoverable(text: string)
    ensures var r := Reply(Fallback, text);
      |FallbackHeader| + |Ellipsis| <= |r| <= |FallbackHeader| + FallbackEchoLimit + |Ellipsis| &&
      r[|FallbackHeader|..|r| - |Ellipsis|] == Head(text, FallbackEchoLimit) &&
      (|text| <= FallbackEchoLimit ==> r[|FallbackHeader|..|r| - |Ellipsis|] == text)
  {
    var r := Reply(Fallback, text);
    var h := Head(text, FallbackEchoLimit);
    assert r == FallbackHeader + h + Ellipsis;
    assert r[|FallbackHeader|..|r| - |Ellipsis|] == h;
  }

  // ---------------------------------------------------------------------------
  // Classification: the branch chain as written
  // ---------------------------------------------------------------------------

  /** The `if`/`elif` chain, over a question that is already lower-cased. */
  function ClassifyLowered(q: string): Intent
  {
    if Contains(q, "what") then AboutText
    else if Contains(q, "who") then AboutPersons
    else if Contains(q, "hello") || Contains(q, "hi") then Greeting
    else if Contains(q, "how") then AboutMethod
    else if Contains(q, "why") then AboutPurpose
    else if Contains(q, "where") then AboutLocation
    else Fallback
  }

  /** The branch taken for `user_query`: the chain runs on `user_query.lower()`. */
  function Classify(query: string): Intent
  {
    ClassifyLowered(Lower(query))
  }

  /** The responder: a pure function of the question and the extracted text
      whose reply names the branch the question selects. */
  function Respond(query: string, text: string): (r: string)
    ensures IntentOfReply(r) == Classify(query)
  {
    IntentRecoverable(Classify(query), text);
    Reply(Classify(query), text)
  }

  /** Whatever the question, the reply is one of the seven branch replies. */
  lemma RespondIsOneOfSeven(query: string, text: string)
    ensures Respond(query, text) in {Reply(AboutText, text), PersonsReply, GreetingReply,
      MethodReply, PurposeReply, LocationReply, Reply(Fallback, text)}
  {
  }

  // ---------------------------------------------------------------------------
  // Classification: the same policy as an ordered rule table
  // ---------------------------------------------------------------------------

  /** One row of the policy: fires when the question holds any of its keywords. */
  datatype Rule = Rule(keywords: seq<string>, intent: Intent)

  predicate Fires(rule: Rule, q: string)
  {
    exists k :: 0 <= k < |rule.keywords| && Contains(q, rule.keywords[k])
  }

  /** The policy in evaluation order; a question no row fires on falls back. */
  const Policy: seq<Rule> := [
    Rule(["what"], AboutText),
    Rule(["who"], AboutPersons),
    Rule(["hello", "hi"], Greeting),
    Rule(["how"], AboutMethod),
    Rule(["why"], AboutPurpose),
    Rule(["where"], AboutLocation)
  ]

  /** The position of the first row that fires, or `|rules|` when none does. */
  function FirstFiring(rules: seq<Rule>, q: string): (k: nat)
    ensures k <= |rules|
    ensures k < |rules| ==> Fires(rules[k], q)
    ensures forall j :: 0 <= j < k ==> !Fires(rules[j], q)
    decreases |rules|
  {
    if rules == [] then 0
    else if Fires(rules[0], q) then 0
    else
      var k := FirstFiring(rules[1..], q);
      assert forall j :: 1 <= j < k + 1 ==> rules[j] == rules[1..][j - 1];
      k + 1
  }

  /** The intent of the first row that fires, or `Fallback`. */
  function PolicyIntent(q: string): Intent
  {
    var k := FirstFiring(Policy, q);
    if k < |Policy| then Policy[k].intent else Fallback
  }

  lemma FiresOne(kw: string, intent: Intent, q: string)
    ensures Fires(Rule([kw], intent), q) <==> Contains(q, kw)
  {
    if Contains(q, kw) {
      assert Rule([kw], intent).keywords[0] == kw;
    }
  }

  lemma FiresTwo(kw1: string, kw2: string, intent: Intent, q: string)
    ensures Fires(Rule([kw1, kw2], intent), q) <==> Contains(q, kw1) || Contains(q, kw2)
  {
    var rule := Rule([kw1, kw2], intent);
    if Contains(q, kw1) {
      assert rule.keywords[0] == kw1;
    }
    if Contains(q, kw2) {
      assert rule.keywords[1] == kw2;
    }
  }

  /** The hand-written chain and the rule table agree on every question: the
      chain is exactly "the first row that fires wins, in table order". */
  lemma ClassifyFollowsPolicy(query: string)
    ensures Classify(query) == PolicyIntent(Lower(query))
  {
    var q := Lower(query);
    var k := FirstFiring(Policy, q);
    FiresOne("what", AboutText, q);
    FiresOne("who", AboutPersons, q);
    FiresTwo("hello", "hi", Greeting, q);
    FiresOne("how", AboutMethod, q);
    FiresOne("why", AboutPurpose, q);
    FiresOne("where", AboutLocation, q);
    assert Policy[0] == Rule(["what"], AboutText);
    assert Policy[1] == Rule(["who"], AboutPersons);
    assert Policy[2] == Rule(["hello", "hi"], Greeting);
    assert Policy[3] == Rule(["how"], AboutMethod);
    assert Policy[4] == Rule(["why"], AboutPurpose);
    assert Policy[5] == Rule(["where"], AboutLocation);
  }

  // ---------------------------------------------------------------------------
  // Properties of the policy
  // ---------------------------------------------------------------------------

  /** Only the lower-cased question matters. */
  lemma RespondIgnoresCase(query: string, text: string)
    ensures Respond(Lower(query), text) == Respond(query, text)
  {
    LowerIdempotent(query);
  }

  /** A question holding "what" gets the text echo, whatever else it holds. */
  lemma TextQuestionEchoes(query: string, text: string)
    requires Contains(Lower(query), "what")
    ensures Respond(query, text) == TextHeader + Head(text, TextEchoLimit) + Ellipsis
    ensures |Respond(query, text)| <= |TextHeader| + TextEchoLimit + |Ellipsis|
  {
  }

  /** A question holding "hi" or "hello" but neither "what" nor "who" gets the
      greeting, whatever the extracted text and even when it also holds "how". */
  lemma HiWinsOverLaterRules(query: string, text: string)
    requires Contains(Lower(query), "hi") || Contains(Lower(query), "hello")
    requires !Contains(Lower(query), "what") && !Contains(Lower(query), "who")
    ensures Respond(query, text) == GreetingReply
  {
  }

  /** A question none of the six rows fires on gets the fallback echo. */
  lemma UnmatchedEchoes(query: string, text: string)
    requires forall k :: 0 <= k < |Policy| ==> !Fires(Policy[k], Lower(query))
    ensures Respond(query, text) == FallbackHeader + Head(text, FallbackEchoLimit) + Ellipsis
  {
    ClassifyFollowsPolicy(query);
  }

  /** Every keyword holds an "h", so a question without one always falls back,
      and one without a "w" can only be greeted or fall back. */
  lemma KeywordLetters(query: string)
    ensures 'h' !in Lower(query) ==> Classify(query) == Fallback
    ensures 'w' !in Lower(query) ==> Classify(query) in {Greeting, Fallback}
  {
    var q := Lower(query);
    if 'h' !in q {
      MissingCharExcludes(q, "what", 'h');
      MissingCharExcludes(q, "who", 'h');
      MissingCharExcludes(q, "hello", 'h');
      MissingCharExcludes(q, "hi", 'h');
      MissingCharExcludes(q, "how", 'h');
      MissingCharExcludes(q, "why", 'h');
      MissingCharExcludes(q, "where", 'h');
    }
    if 'w' !in q {
      MissingCharExcludes(q, "what", 'w');
      MissingCharExcludes(q, "who", 'w');
      MissingCharExcludes(q, "how", 'w');
      MissingCharExcludes(q, "why", 'w');
      MissingCharExcludes(q, "where", 'w');
    }
  }

  /** A lower-cased question with "hi" at a known position, no "a" (so no
      "what") and two neighbouring letters of "who" that never stand side by
      side in it (so no "who") takes the greeting branch. */
  lemma GreetedLowered(q: string, at: int, j: int)
    requires OccursAt(q, "hi", at)
    requires 'a' !in q
    requires 0 <= j < 2
    requires forall i :: 0 <= i < |q| - 1 ==> !(q[i] == "who"[j] && q[i + 1] == "who"[j + 1])
    ensures ClassifyLowered(q) == Greeting
  {
    OccurrenceContains(q, "hi", at);
    MissingCharExcludes(q, "what", 'a');
    MissingPairExcludes(q, "who", j);
  }

  lemma WhoWroteWhatLowered(q: string)
    requires q == "who wrote what?"
    ensures ClassifyLowered(q) == AboutText
  {
    OccurrenceContains(q, "what", 10);
  }

  lemma HowIsThisDoneLowered(q: string)
    requires q == "how is this done?"
    ensures ClassifyLowered(q) == Greeting
  {
    GreetedLowered(q, 8, 0);
  }

  lemma WhichOneLowered(q: string)
    requires q == "which one?"
    ensures ClassifyLowered(q) == Greeting
  {
    GreetedLowered(q, 1, 1);
  }

  lemma WhatDoesItSayLowered(q: string)
    requires q == "what does it say?"
    ensures ClassifyLowered(q) == AboutText
  {
    OccurrenceContains(q, "what", 0);
  }

  /** "Who wrote what?" is answered as a "what" question. */
  lemma WhatBeforeWho(query: string, text: string)
    requires query == "Who wrote what?"
    ensures Respond(query, text) == Reply(AboutText, text)
  {
    LowerByChars(query, "who wrote what?");
    WhoWroteWhatLowered(Lower(query));
  }

  /** "How is this done?" is greeted: "this" holds "hi", tested before "how". */
  lemma HowQuestionGreeted(query: string, text: string)
    requires query == "How is this done?"
    ensures Respond(query, text) == GreetingReply
  {
    LowerByChars(query, "how is this done?");
    HowIsThisDoneLowered(Lower(query));
  }

  /** "Which one?" is greeted as well. */
  lemma WhichQuestionGreeted(query: string, text: string)
    requires query == "Which one?"
    ensures Respond(query, text) == GreetingReply
  {
    LowerByChars(query, "which one?");
    WhichOneLowered(Lower(query));
  }

  /** A short invoice text is echoed whole after the header. */
  lemma InvoiceExample(query: string, text: string)
    requires query == "What does it say?"
    requires text == "Invoice Total: $453.20 Due 2025-01-01"
    ensures Respond(query, text) == TextHeader + text + Ellipsis
  {
    LowerByChars(query, "what does it say?");
    WhatDoesItSayLowered(Lower(query));
    assert Head(text, TextEchoLimit) == text;
  }

  // ---------------------------------------------------------------------------
  // The "Ask the Chatbot" button
  // ---------------------------------------------------------------------------

  /** What the button press shows. */
  datatype AskOutcome =
    | UploadFirstWarning
    | TypeQuestionInfo
    | Answer(reply: string)

  /** One press of the ask button: without an upload a warning, with a blank
      question an info line, otherwise the responder's reply over the text
      extracted from the upload. */
  function Ask(upload: Option<Result<seq<string>>>, query: string): (r: AskOutcome)
    ensures upload.None? <==> r == UploadFirstWarning
    ensures r == TypeQuestionInfo <==> upload.Some? && IsBlank(query)
    ensures r.Answer? ==> r.reply == Respond(query, ExtractedText(upload))
  {
    StripEmptyIffBlank(query);
    if upload.None? then UploadFirstWarning
    else if Strip(query) == [] then TypeQuestionInfo
    else Answer(Respond(query, ExtractedText(upload)))
  }

  /** A failed OCR does not stop the responder: a non-blank question is
      answered over empty text, so a "what" question gets the bare header. */
  lemma FailedOcrStillAnswers(query: string, error: string)
    requires !IsBlank(query)
    ensures Ask(Some(Err(error)), query) == Answer(Respond(query, ""))
    ensures Contains(Lower(query), "what") ==>
      Ask(Some(Err(error)), query) == Answer(TextHeader + Ellipsis)
  {
    assert ExtractedText(Some(Err(error))) == "";
    if Contains(Lower(query), "what") {
      TextQuestionEchoes(query, "");
      assert TextHeader + Head("", TextEchoLimit) + Ellipsis == TextHeader + Ellipsis;
    }
  }
}

=== FILE: session.dfy ===
/** The chat page's session record and the events that change it (app.py):
    sending a turn to the selected backend, starting a new chat, restoring
    an archived chat and choosing a model. Each page rerun is one event
    applied to an immutable `Session`; the backends are reduced to the
    outcome they would produce. */
module ChatSession {
  import opened Outcomes
  import opened Text

  // ---------------------------------------------------------------------------
  // Data
  // ---------------------------------------------------------------------------

  datatype Role = User | Assistant

  datatype Message = Message(role: Role, content: string)

  /** An archived conversation: its display title and a snapshot of its messages. */
  datatype SavedChat = SavedChat(title: string, messages: seq<Message>)

  /** `st.session_state`: the live conversation, the archive, the archive
      position the live conversation is saved under, and the chosen model. */
  datatype Session = Session(
    messages: seq<Message>,
    savedChats: seq<SavedChat>,
    currentChatId: Option<nat>,
    selectedModel: string)

  const DefaultModel: string := "llama3.2:1b"
  const CloudModel: string := "deepseek-api"
  const MissingKeyReply: string :=
    "\U{26A0}\U{FE0F} DeepSeek API key not found. Please set DEEPSEEK_API_KEY."
  const ErrorPrefix: string := "Error: "
  const TitleLimit: nat := 50
  const TitleEllipsis: string := "..."

  /** The state a fresh browser session starts in. */
  function InitialSession(): (s: Session)
    ensures s.messages == [] && s.savedChats == [] && s.currentChatId.None?
    ensures s.selectedModel == DefaultModel
  {
    Session([], [], None, DefaultModel)
  }

  // ---------------------------------------------------------------------------
  // Titles and the archive
  // ---------------------------------------------------------------------------

  /** A chat's title: its first message, cut to 50 characters plus "..." when longer.
      The title keeps the first 50 characters, and it equals the content
      exactly when the content is short or already looks like a cut title. */
  function Title(content: string): (t: string)
    ensures |t| <= TitleLimit + |TitleEllipsis|
    ensures IsPrefix(Head(content, TitleLimit), t)
    ensures |content| <= TitleLimit ==> t == content
    ensures |content| > TitleLimit ==>
      |t| == TitleLimit + |TitleEllipsis| && t[TitleLimit..] == TitleEllipsis
    ensures t == content <==> |content| <= TitleLimit || content[TitleLimit..] == TitleEllipsis
  {
    if |content| > TitleLimit then content[..TitleLimit] + TitleEllipsis else content
  }

  /** A 72-character message is titled with its first 50 characters and "...". */
  lemma LongTitleExample(content: string)
    requires content == "Hello world this is a very long message exceeding fifty characters total"
    ensures Title(content) == "Hello world this is a very long message exceeding " + "..."
  {
    assert content[..TitleLimit] == "Hello world this is a very long message exceeding ";
  }

  /** Saves `msgs` under archive position `id`: nothing without a position,
      the entry's messages replaced in place when the position is taken
      (title and every other entry kept), one new titled entry appended
      otherwise. */
  function Archive(saved: seq<SavedChat>, id: Option<nat>, msgs: seq<Message>): (r: seq<SavedChat>)
    requires |msgs| > 0
    ensures id.None? ==> r == saved
    ensures id.Some? && id.value < |saved| ==>
      |r| == |saved| &&
      r[id.value] == SavedChat(saved[id.value].title, msgs) &&
      forall j :: 0 <= j < |saved| && j != id.value ==> r[j] == saved[j]
    ensures id.Some? && id.value >= |saved| ==>
      |r| == |saved| + 1 && r[..|saved|] == saved &&
      r[|saved|] == SavedChat(Title(msgs[0].content), msgs)
  {
    match id
    case None => saved
    case Some(k) =>
      if k < |saved| then saved[k := saved[k].(messages := msgs)]
      else saved + [SavedChat(Title(msgs[0].content), msgs)]
  }

  // ---------------------------------------------------------------------------
  // Sending a turn
  // ---------------------------------------------------------------------------

  /** The text the page sends: an uploaded image replaces the typed text with
      its OCR text, which is empty when the OCR call raised. */
  function EffectiveInput(typed: string, upload: Option<Result<string>>): (input: string)
    ensures upload.None? ==> input == typed
    ensures upload.Some? && upload.value.Err? ==> input == ""
    ensures upload.Some? && upload.value.Ok? ==> input == upload.value.value
  {
    match upload
    case None => typed
    case Some(Ok(text)) => text
    case Some(Err(_)) => ""
  }

  /** The backend's answer for the selected model: the cloud model answers
      with the fixed warning when no API key is configured, and otherwise
      with the cloud outcome; every other model is served locally. */
  function Dispatch(model: string, hasKey: bool, local: Result<string>, cloud: Result<string>)
    : (r: Result<string>)
    ensures model != CloudModel ==> r == local
    ensures model == CloudModel && !hasKey ==> r == Ok(MissingKeyReply)
    ensures model == CloudModel && hasKey ==> r == cloud
  {
    if model == CloudModel then
      if hasKey then cloud else Ok(MissingKeyReply)
    else local
  }

  /** The assistant message's text: the reply, or "Error: " and the exception's message. */
  function AssistantContent(outcome: Result<string>): string
  {
    match outcome
    case Ok(reply) => reply
    case Err(message) => ErrorPrefix + message
  }

  /** One rerun with a non-empty input: the user message and one assistant
      message are appended; the first message of a conversation claims the
      next free archive position; a reply that came back (not an exception)
      saves the conversation into the archive. An empty input changes nothing. */
  function SendTurn(s: Session, input: string, hasKey: bool, local: Result<string>, cloud: Result<string>)
    : (r: Session)
    ensures input == "" ==> r == s
    ensures input != "" ==>
      |r.messages| == |s.messages| + 2 &&
      r.messages[..|s.messages|] == s.messages &&
      r.messages[|s.messages|] == Message(User, input) &&
      r.messages[|s.messages| + 1].role == Assistant
    ensures input != "" && s.messages == [] ==> r.currentChatId == Some(|s.savedChats|)
    ensures input != "" && s.messages != [] ==> r.currentChatId == s.currentChatId
    ensures r.selectedModel == s.selectedModel
  {
    if input == "" then s
    else
      var withUser := s.messages + [Message(User, input)];
      var id := if |withUser| == 1 then Some(|s.savedChats|) else s.currentChatId;
      var outcome := Dispatch(s.selectedModel, hasKey, local, cloud);
      var msgs := withUser + [Message(Assistant, AssistantContent(outcome))];
      var saved := if outcome.Ok? then Archive(s.savedChats, id, msgs) else s.savedChats;
      Session(msgs, saved, id, s.selectedModel)
  }

  /** What the assistant message says: the fixed warning for the cloud model
      without a key, "Error: " and the message when the backend raised, the
      backend's reply otherwise. */
  lemma SendTurnReply(s: Session, input: string, hasKey: bool, local: Result<string>, cloud: Result<string>)
    requires input != ""
    ensures var r := SendTurn(s, input, hasKey, local, cloud);
      var said := r.messages[|s.messages| + 1].content;
      (s.selectedModel == CloudModel && !hasKey ==> said == MissingKeyReply) &&
      (s.selectedModel == CloudModel && hasKey && cloud.Err? ==> said == ErrorPrefix + cloud.message) &&
      (s.selectedModel == CloudModel && hasKey && cloud.Ok? ==> said == cloud.value) &&
      (s.selectedModel != CloudModel && local.Err? ==> said == ErrorPrefix + local.message) &&
      (s.selectedModel != CloudModel && local.Ok? ==> said == local.value)
  {
  }

  /** What a turn does to the archive: a failed backend call leaves it alone;
      a reply updates the conversation's own entry in place, or appends it
      when the conversation has no entry yet. */
  lemma SendTurnArchive(s: Session, input: string, hasKey: bool, local: Result<string>, cloud: Result<string>)
    requires input != ""
    ensures var r := SendTurn(s, input, hasKey, local, cloud);
      var outcome := Dispatch(s.selectedModel, hasKey, local, cloud);
      (outcome.Err? ==> r.savedChats == s.savedChats) &&
      (outcome.Ok? && r.currentChatId.Some? && r.currentChatId.value < |s.savedChats| ==>
        var k := r.currentChatId.value;
        |r.savedChats| == |s.savedChats| &&
        r.savedChats[k] == SavedChat(s.savedChats[k].title, r.messages) &&
        forall j :: 0 <= j < |s.savedChats| && j != k ==> r.savedChats[j] == s.savedChats[j]) &&
      (outcome.Ok? && r.currentChatId.Some? && r.currentChatId.value >= |s.savedChats| ==>
        r.savedChats == s.savedChats + [SavedChat(Title(r.messages[0].content), r.messages)])
  {
    var r := SendTurn(s, input, hasKey, local, cloud);
    var outcome := Dispatch(s.selectedModel, hasKey, local, cloud);
    if outcome.Ok? && r.currentChatId.Some? && r.currentChatId.value >= |s.savedChats| {
      var saved := r.savedChats;
      assert saved == saved[..|s.savedChats|] + [saved[|s.savedChats|]];
    }
  }

  /** With the cloud model and no key, the warning is still appended as the
      assistant's turn and the conversation is still archived. */
  lemma MissingKeyTurn(s: Session, input: string, local: Result<string>, cloud: Result<string>)
    requires input != "" && s.selectedModel == CloudModel
    ensures var r := SendTurn(s, input, false, local, cloud);
      r.messages == s.messages + [Message(User, input), Message(Assistant, MissingKeyReply)] &&
      r.savedChats == Archive(s.savedChats, r.currentChatId, r.messages)
  {
    var r := SendTurn(s, input, false, local, cloud);
    assert r.messages == r.messages[..|s.messages|] + [r.messages[|s.messages|], r.messages[|s.messages| + 1]];
  }

  // ---------------------------------------------------------------------------
  // New chat, restore, model choice
  // ---------------------------------------------------------------------------

  /** The "New Chat" button: archives a non-empty conversation, then empties
      it and forgets its archive position. */
  function NewChat(s: Session): (r: Session)
    ensures r.messages == [] && r.currentChatId.None?
    ensures r.selectedModel == s.selectedModel
    ensures s.messages == [] ==> r.savedChats == s.savedChats
    ensures s.messages != [] ==> r.savedChats == Archive(s.savedChats, s.currentChatId, s.messages)
    ensures |s.savedChats| <= |r.savedChats| <= |s.savedChats| + 1
  {
    var saved := if s.messages != [] then Archive(s.savedChats, s.currentChatId, s.messages)
                 else s.savedChats;
    Session([], saved, None, s.selectedModel)
  }

  /** Clicking an archived chat (from the search hits or the recent list):
      its messages become the live conversation, saved back under position `k`. */
  function Restore(s: Session, k: nat): (r: Session)
    requires k < |s.savedChats|
    ensures r.messages == s.savedChats[k].messages
    ensures r.currentChatId == Some(k)
    ensures r.savedChats == s.savedChats && r.selectedModel == s.selectedModel
  {
    Session(s.savedChats[k].messages, s.savedChats, Some(k), s.selectedModel)
  }

  /** The sidebar's model choices, as (label, model name) in display order. */
  const ModelOptions: seq<(string, string)> := [
    ("Llama 3.2 1B (Fast)", "llama3.2:1b"),
    ("Llama 3.1 8B (Better)", "llama3.1:8b"),
    ("DeepSeek Coder 1.3B (Lightweight)", "deepseek-coder:1.3b"),
    ("DeepSeek Coder 6.7B (Powerful)", "deepseek-coder:6.7b"),
    ("DeepSeek API (Cloud)", "deepseek-api")
  ]

  function ModelNames(options: seq<(string, string)>): (names: seq<string>)
    ensures |names| == |options|
    ensures forall i :: 0 <= i < |options| ==> names[i] == options[i].1
  {
    if options == [] then [] else [options[0].1] + ModelNames(options[1..])
  }

  /** `values.index(model)`: the first position holding `model`, if any. */
  function IndexOf(names: seq<string>, model: string): (r: Option<nat>)
    ensures r.None? <==> model !in names
    ensures r.Some? ==> r.value < |names| && names[r.value] == model &&
                        forall j :: 0 <= j < r.value ==> names[j] != model
  {
    if names == [] then None
    else if names[0] == model then Some(0)
    else match IndexOf(names[1..], model)
      case None => None
      case Some(k) => Some(k + 1)
  }

  /** The select box's preselected row: the selected model's position, or the
      first row when the selected model is not among the options. */
  function ModelIndex(model: string): (i: nat)
    ensures i < |ModelOptions|
    ensures model in ModelNames(ModelOptions) ==> ModelOptions[i].1 == model
    ensures model !in ModelNames(ModelOptions) ==> i == 0
  {
    match IndexOf(ModelNames(ModelOptions), model)
    case None => 0
    case Some(k) => k
  }

  /** The model names are distinct, so a row's name leads back to that row. */
  lemma ModelIndexRoundTrip(i: nat)
    requires i < |ModelOptions|
    ensures ModelIndex(ModelOptions[i].1) == i
  {
    var names := ModelNames(ModelOptions);
    assert names == ["llama3.2:1b", "llama3.1:8b", "deepseek-coder:1.3b", "deepseek-coder:6.7b", "deepseek-api"];
  }

  /** Choosing row `i` of the select box. */
  function SelectModel(s: Session, i: nat): (r: Session)
    requires i < |ModelOptions|
    ensures r.selectedModel == ModelOptions[i].1
    ensures r.messages == s.messages && r.savedChats == s.savedChats && r.currentChatId == s.currentChatId
  {
    s.(selectedModel := ModelOptions[i].1)
  }

  // ---------------------------------------------------------------------------
  // Events
  // ---------------------------------------------------------------------------

  /** One rerun of the page, as the user interaction that caused it. */
  datatype Event =
    | Send(typed: string, upload: Option<Result<string>>, hasKey: bool,
           local: Result<string>, cloud: Result<string>)
    | PressNewChat
    | Open(index: nat)
    | Choose(row: nat)

  /** The interaction is offered on the page: only existing chats and rows can be clicked. */
  predicate Enabled(s: Session, e: Event)
  {
    match e
    case Open(k) => k < |s.savedChats|
    case Choose(i) => i < |ModelOptions|
    case _ => true
  }

  function Step(s: Session, e: Event): (r: Session)
    requires Enabled(s, e)
    ensures e.PressNewChat? ==> r.messages == [] && r.currentChatId.None?
    ensures e.Open? ==> r.currentChatId == Some(e.index) && r.messages == s.savedChats[e.index].messages
    ensures e.Choose? ==> r.selectedModel == ModelOptions[e.row].1
  {
    match e
    case Send(typed, upload, hasKey, local, cloud) =>
      SendTurn(s, EffectiveInput(typed, upload), hasKey, local, cloud)
    case PressNewChat => NewChat(s)
    case Open(k) => Restore(s, k)
    case Choose(i) => SelectModel(s, i)
  }
}

=== FILE: text.dfy ===
/** The handful of Python string operations both scripts rely on:
    `str.lower()` (ASCII letters only), the `in` substring test, the prefix
    slice `s[:n]`, `str.strip()` and `"\n".join` / `str.split("\n")`. */
module Text {

  // ---------------------------------------------------------------------------
  // Lower-casing
  // ---------------------------------------------------------------------------

  /** Lower-cases one ASCII letter; every other character is left alone. */
  function LowerChar(c: char): char
  {
    if 'A' <= c <= 'Z' then (c as int + 32) as char else c
  }

  /** `s.lower()`, restricted to ASCII letters. */
  function Lower(s: string): (r: string)
    ensures |r| == |s|
    ensures forall i :: 0 <= i < |s| ==> r[i] == LowerChar(s[i])
    ensures forall i :: 0 <= i < |r| ==> !('A' <= r[i] <= 'Z')
  {
    if s == [] then [] else [LowerChar(s[0])] + Lower(s[1..])
  }

  /** Lower-casing twice is lower-casing once. */
  lemma LowerIdempotent(s: string)
    ensures Lower(Lower(s)) == Lower(s)
  {
    var l := Lower(s);
    assert forall i :: 0 <= i < |l| ==> LowerChar(l[i]) == l[i];
  }

  /** Lower-casing a string character by character; lets a caller evaluate
      `Lower` on a literal without unfolding it position by position. */
  lemma LowerByChars(s: string, t: string)
    requires |s| == |t|
    requires forall i :: 0 <= i < |s| ==> LowerChar(s[i]) == t[i]
    ensures Lower(s) == t
  {
  }

  // ---------------------------------------------------------------------------
  // Substring test (`sub in s`)
  // ---------------------------------------------------------------------------

  predicate IsPrefix<T(==)>(p: seq<T>, s: seq<T>)
  {
    |p| <= |s| && s[..|p|] == p
  }

  /** `sub in s`, scanning the start positions of `s` from left to right. */
  predicate Contains(s: string, sub: string)
    decreases |s|
  {
    IsPrefix(sub, s) || (|s| > 0 && Contains(s[1..], sub))
  }

  /** `sub` occupies positions `i .. i+|sub|` of `s`. */
  predicate OccursAt(s: string, sub: string, i: int)
  {
    0 <= i && i + |sub| <= |s| && s[i..i + |sub|] == sub
  }

  /** The scanning definition agrees with "there is a position where `sub` occurs". */
  lemma {:induction false} ContainsIffOccurs(s: string, sub: string)
    ensures Contains(s, sub) <==> exists i :: OccursAt(s, sub, i)
    decreases |s|
  {
    if IsPrefix(sub, s) {
      assert OccursAt(s, sub, 0);
    } else if |s| == 0 {
    } else {
      ContainsIffOccurs(s[1..], sub);
      if Contains(s[1..], sub) {
        var i :| OccursAt(s[1..], sub, i);
        assert s[i + 1..i + 1 + |sub|] == s[1..][i..i + |sub|];
        assert OccursAt(s, sub, i + 1);
      }
      if exists i :: OccursAt(s, sub, i) {
        var i :| OccursAt(s, sub, i);
        assert i != 0;
        assert s[1..][i - 1..i - 1 + |sub|] == s[i..i + |sub|];
        assert OccursAt(s[1..], sub, i - 1);
      }
    }
  }

  /** Every character of a contained string is a character of the container,
      so a missing letter rules a keyword out. */
  lemma ContainedCharsOccur(s: string, sub: string)
    requires Contains(s, sub)
    ensures forall c :: c in sub ==> c in s
  {
    ContainsIffOccurs(s, sub);
    var i :| OccursAt(s, sub, i);
    forall c | c in sub ensures c in s {
      var k :| 0 <= k < |sub| && sub[k] == c;
      assert s[i + k] == s[i..i + |sub|][k];
    }
  }

  /** A keyword with a letter the text lacks is not contained in it. */
  lemma MissingCharExcludes(s: string, sub: string, c: char)
    requires c in sub && c !in s
    ensures !Contains(s, sub)
  {
    if Contains(s, sub) {
      ContainedCharsOccur(s, sub);
    }
  }

  /** An occurrence of `sub` puts any two neighbouring characters of it side by side in `s`. */
  lemma ContainedPairOccurs(s: string, sub: string, j: int)
    requires 0 <= j < |sub| - 1 && Contains(s, sub)
    ensures exists i :: 0 <= i < |s| - 1 && s[i] == sub[j] && s[i + 1] == sub[j + 1]
  {
    ContainsIffOccurs(s, sub);
    var i :| OccursAt(s, sub, i);
    assert s[i + j] == s[i..i + |sub|][j];
    assert s[i + j + 1] == s[i..i + |sub|][j + 1];
  }

  /** A keyword two of whose neighbouring letters never stand side by side in
      the text is not contained in it. */
  lemma MissingPairExcludes(s: string, sub: string, j: int)
    requires 0 <= j < |sub| - 1
    requires forall i :: 0 <= i < |s| - 1 ==> !(s[i] == sub[j] && s[i + 1] == sub[j + 1])
    ensures !Contains(s, sub)
  {
    if Contains(s, sub) {
      ContainedPairOccurs(s, sub, j);
    }
  }

  /** An occurrence at a known position witnesses the substring test. */
  lemma OccurrenceContains(s: string, sub: string, i: int)
    requires OccursAt(s, sub, i)
    ensures Contains(s, sub)
  {
    ContainsIffOccurs(s, sub);
  }

  // ---------------------------------------------------------------------------
  // Prefix slice (`s[:n]`)
  // ---------------------------------------------------------------------------

  /** Python's `s[:n]` for a non-negative `n`: never fails, clamps at the end. */
  function Head<T>(s: seq<T>, n: nat): (p: seq<T>)
    ensures |p| <= n && |p| <= |s|
    ensures |p| == n || |p| == |s|
    ensures IsPrefix(p, s)
  {
    if |s| <= n then s else s[..n]
  }

  // ---------------------------------------------------------------------------
  // `str.strip()`
  // ---------------------------------------------------------------------------

  /** Python's `str.isspace()` for one character: the ASCII controls TAB..CR,
      the separators U+001C..U+001F, space, NEL, NO-BREAK SPACE and the
      Unicode space separators. */
  predicate IsSpace(c: char)
  {
    var n := c as int;
    (0x09 <= n <= 0x0D) || (0x1C <= n <= 0x20) || n == 0x85 || n == 0xA0 ||
    n == 0x1680 || (0x2000 <= n <= 0x200A) || n == 0x2028 || n == 0x2029 ||
    n == 0x202F || n == 0x205F || n == 0x3000
  }

  predicate IsBlank(s: string)
  {
    forall i :: 0 <= i < |s| ==> IsSpace(s[i])
  }

  function TrimStart(s: string): (r: string)
    ensures r == [] || !IsSpace(r[0])
    ensures |r| <= |s| && r == s[|s| - |r|..]
    ensures IsBlank(s[..|s| - |r|])
  {
    if s != [] && IsSpace(s[0]) then
      var r := TrimStart(s[1..]);
      assert s[1..][..|s| - 1 - |r|] == s[1..|s| - |r|];
      r
    else s
  }

  function TrimEnd(s: string): (r: string)
    ensures r == [] || !IsSpace(r[|r| - 1])
    ensures |r| <= |s| && r == s[..|r|]
    ensures IsBlank(s[|r|..])
  {
    if s != [] && IsSpace(s[|s| - 1]) then
      var r := TrimEnd(s[..|s| - 1]);
      assert s[..|s| - 1][|r|..] == s[|r|..|s| - 1];
      r
    else s
  }

  /** `s.strip()`: drops leading and trailing whitespace. */
  function Strip(s: string): (r: string)
    ensures r == [] || (!IsSpace(r[0]) && !IsSpace(r[|r| - 1]))
  {
    TrimEnd(TrimStart(s))
  }

  /** `not s.strip()` holds exactly for the strings made only of whitespace. */
  lemma StripEmptyIffBlank(s: string)
    ensures Strip(s) == [] <==> IsBlank(s)
  {
    var t := TrimStart(s);
    assert t != [] ==> s[|s| - |t|] == t[0];
    if Strip(s) == [] {
      assert TrimEnd(t) == [];
      assert t[0..] == t;
    }
  }

  // ---------------------------------------------------------------------------
  // `"\n".join(lines)` and `s.split("\n")`
  // ---------------------------------------------------------------------------

  /** `"\n".join(lines)`. */
  function JoinLines(lines: seq<string>): (s: string)
    ensures |lines| == 1 ==> s == lines[0]
  {
    if |lines| == 0 then ""
    else if |lines| == 1 then lines[0]
    else lines[0] + "\n" + JoinLines(lines[1..])
  }

  /** `s.split("\n")`: always at least one piece, none of them holding a newline. */
  function SplitLines(s: string): (pieces: seq<string>)
    ensures |pieces| >= 1
    ensures forall k :: 0 <= k < |pieces| ==> '\n' !in pieces[k]
    decreases |s|
  {
    if s == [] then [""]
    else
      var rest := SplitLines(s[1..]);
      if s[0] == '\n' then [""] + rest
      else [[s[0]] + rest[0]] + rest[1..]
  }

  lemma {:induction false} SplitLineWithoutNewline(x: string)
    requires '\n' !in x
    ensures SplitLines(x) == [x]
    decreases |x|
  {
    if x != [] {
      SplitLineWithoutNewline(x[1..]);
      assert [x[0]] + x[1..] == x;
    }
  }

  lemma {:induction false} SplitAfterLine(x: string, y: string)
    requires '\n' !in x
    ensures SplitLines(x + "\n" + y) == [x] + SplitLines(y)
    decreases |x|
  {
    if x == [] {
      assert x + "\n" + y == ['\n'] + y;
      assert (['\n'] + y)[1..] == y;
    } else {
      var t := x + "\n" + y;
      assert t[1..] == x[1..] + "\n" + y;
      SplitAfterLine(x[1..], y);
      assert t[0] == x[0];
      assert [x[0]] + x[1..] == x;
    }
  }

  /** Splitting a join of newline-free lines gives the lines back. */
  lemma {:induction false} SplitJoinRoundTrip(lines: seq<string>)
    requires |lines| >= 1
    requires forall k :: 0 <= k < |lines| ==> '\n' !in lines[k]
    ensures SplitLines(JoinLines(lines)) == lines
    decreases |lines|
  {
    if |lines| == 1 {
      SplitLineWithoutNewline(lines[0]);
    } else {
      SplitJoinRoundTrip(lines[1..]);
      SplitAfterLine(lines[0], JoinLines(lines[1..]));
      assert [lines[0]] + lines[1..] == lines;
    }
  }
}
